=== FILE: README.md ===
# logredactor in Dafny

A model of `RedactingFilter`, a filter for Python's `logging` module. Before a log
record is emitted, the filter masks sensitive content in it. It uses two policies.

- **Pattern masking**: every match of every configured regular expression is
  replaced by the mask, in pattern-list order.
- **Key masking**: a non-empty scalar that sits directly under a name listed in
  `mask_keys` is replaced by the mask outright.

The filter walks each record attribute (except a fixed set of reserved names) and
the message arguments. It recurses through nested dicts and lists.

The model is functional. Redaction returns a new value, where the original
rewrites containers in place.

- `values.dfy` (`Values`): the payload type `Value` (None, bool, int, str, list,
  dict with string keys, and any other object given by its `str()` text and its
  truth value), Python truthiness, paths into a value, and the
  `SameShape` relation.
- `pytext.dfy` (`PyText`): Python's `str()` of scalars, with a parser as its
  inverse for ints.
- `patterns.dfy` (`Patterns`): a pattern is abstract. It is modelled by what
  `re.sub(pattern, mask, text)` does with it, as a function of the mask and the
  text. Applying the pattern list is a left fold.
- `digit_runs.dfy` (`DigitRuns`): one concrete pattern family, `\d{n}`, the one
  every test in the suite uses except the lookbehind test
  (`tests/test_redacting_filter.py:139-147`). It comes with proofs that every match gets masked and that
  masking is idempotent.
- `redacting_filter.dfy` (`RedactingFilter`): the policy, the constructor,
  `Redact`, the record filter `FilterRecord`, and the loop form `Filtered` that
  follows the source's loops.
- `scenarios.dfy` (`Scenarios`): the test suite's cases, each stated for every
  input of the tested shape (for example, any three digits where the test uses
  `123`).

Three points of the code's behaviour that the model keeps:

- **Keys inside dicts.** Line 41 of `loggingredactor/redacting_filter.py` calls
  `redact(v)` with no key, so a masked name nested inside a dict is only
  pattern-masked, whatever string keys `mask_keys` holds.
  `NestedKeysNotMasked` and `NestedMaskedKeyIsKept` state this.
- **The message template.** `msg` is not in `ignore_keys` (lines 7-12), so the
  template attribute is redacted like any other attribute, with key `msg`.
- **Idempotence.** Redacting a value a second time with the same key changes
  nothing, and neither does filtering a record a second time, whenever a
  second pass of the patterns changes nothing (`RedactIdempotent`,
  `FilterIdempotent`). The masked value is the mask itself, and a
  pattern-masked text is left as it is. `\d{n}` with a mask that holds no digit is
  such a pattern list (`SubDigitRunsIdempotent`, `SuiteFilterIdempotent`).

## Model

| member | source | states |
|---|---|---|
| RedactingFilter.Redact | loggingredactor/redacting_filter.py:37-55 | Falsy content (None, False, 0, an empty str/list/dict, or another object whose truth value is false) comes back unchanged, even under a masked key. A non-empty scalar under a key in `mask_keys` becomes exactly the mask, whatever the patterns. Any other non-empty scalar becomes the pattern fold over its text. A dict keeps its key set, a list its length, and a scalar stays a scalar. |
| RedactingFilter.RedactAtPath | loggingredactor/redacting_filter.py:38-53 | Path-wise reference specification. A path exists in the output exactly when it exists in the input. At any path that ends on a leaf, the output is that leaf redacted on its own. The leaf gets the caller's key at the top level and no key at any depth below it. |
| RedactingFilter.RedactKeepsShape | loggingredactor/redacting_filter.py:39-45 | Redaction preserves nesting all the way down: the same dict keys, the same list lengths, and a scalar wherever the input had one. |
| RedactingFilter.NestedKeysNotMasked | loggingredactor/redacting_filter.py:41 | Below the top level, string mask keys have no effect. Redacting with no key gives the same result whatever set of string mask keys the filter has, so a masked name nested in a dict is only pattern-masked. |
| RedactingFilter.RedactIdempotent | loggingredactor/redacting_filter.py:37-55 | If a second pass of the pattern list changes nothing, then redacting the result of a redaction again, with the same key, gives the same value. This holds at every depth, for masked and pattern-masked leaves alike. |
| RedactingFilter.NewFilter | loggingredactor/redacting_filter.py:14-20 | The patterns are kept as given. The mask is `str(default_mask)`: a string is kept, an int is stored as its canonical numeral, which parses back to it, True and False become `True` and `False`, and None becomes `None`. A key is masked exactly when it is in the given `mask_keys`, and a missing `mask_keys` gives the empty set. |
| RedactingFilter.NewFilterDefaultMask | loggingredactor/redacting_filter.py:14 | Called without `default_mask`, the constructor masks with `****`. |
| RedactingFilter.FilterRecord | loggingredactor/redacting_filter.py:22-35 | The record's attributes are `vars(record)` with `args` held once, as the record's arguments, and not again among the attributes. Filtering always returns True and keeps that form. No attribute is added or removed. The other attributes named in `ignore_keys` are unchanged. Every attribute not named there becomes `redact(value, name)`. `args` is rewritten as lines 29-33 do. Dict args keep their keys, and each value is redacted with its own key. Positional args keep their length and order, and each element is redacted with no key. |
| RedactingFilter.FilterIdempotent | loggingredactor/redacting_filter.py:22-35 | If a second pass of the pattern list changes nothing, then filtering an already filtered record returns True and the same record. |
| RedactingFilter.FilterKeepsShape | loggingredactor/redacting_filter.py:22-33 | Filtering preserves the shape of every attribute and of every argument. |
| RedactingFilter.RewriteEntriesLoop | loggingredactor/redacting_filter.py:24-31 | The in-place loop over a dict, used for the record's attributes (lines 24-26; the source skips an ignored name, and the model writes back its value unchanged, which gives the same record) and for dict args (lines 30-31). Whatever order it visits the keys in, it ends with every entry rewritten exactly once from its original value, and with no key added or removed. |
| RedactingFilter.RewriteItemsLoop | loggingredactor/redacting_filter.py:33 | Rebuilding the positional tuple one element at a time gives a tuple of the same length whose every element is the rewrite of the element at the same position. |
| RedactingFilter.Filtered | loggingredactor/redacting_filter.py:22-35 | The loop-based filter returns True and computes the same record as `FilterRecord`. |
| Patterns.ApplyPatterns | loggingredactor/redacting_filter.py:52-53 | With no patterns the text is returned unchanged. With one pattern the result is that pattern's substitution. |
| Patterns.ApplyPatternsConcat | loggingredactor/redacting_filter.py:52-53 | Applying a list of patterns is a left fold: running `ps + qs` is the same as running `qs` on what `ps` produced. |
| Patterns.LastPatternRunsLast | loggingredactor/redacting_filter.py:52-53 | The last pattern in the list runs on the output of all the patterns before it. |
| Patterns.TwoPatternsInOrder | loggingredactor/redacting_filter.py:52-53 | With patterns `[p1, p2]`, `p1`'s matches are masked before `p2` sees the text. |
| Patterns.IdlePatternDrops | loggingredactor/redacting_filter.py:52-53 | A pattern that finds nothing to change at its turn can be removed from the list without changing the result. |
| PyText.Text | loggingredactor/redacting_filter.py:51 | A string is used as it is. A non-negative int becomes a numeral with no leading zero that denotes it, and a negative int becomes `-` followed by the numeral of its magnitude, so `0123` and `-0` are never produced. The text parses back to the int. True becomes `True`, False becomes `False`, None becomes `None`, and any other object becomes its `str()` text. |
| PyText.ParseIntToString | loggingredactor/redacting_filter.py:51 | Python's `str()` of an int loses nothing: parsing it back gives the same int. |
| PyText.NumeralIsNatToString | loggingredactor/redacting_filter.py:51 | Every digit string without a leading zero is exactly the numeral `str()` writes for the number it denotes, so the numeral `Text` gives an int is the only one its contract allows. |
| DigitRuns.NoRunUnchanged | loggingredactor/redacting_filter.py:53 | `re.sub(r'\d{n}', mask, text)` leaves the text unchanged when no position in it starts a run of `n` digits. |
| DigitRuns.SubLeavesNoRun | loggingredactor/redacting_filter.py:53 | With a mask that has no digits, substitution masks every match: `\d{n}` finds nothing in its own output. |
| DigitRuns.SubDigitRunsIdempotent | loggingredactor/redacting_filter.py:53 | With a mask that has no digits, a second pass of `\d{n}` changes nothing. |
| DigitRuns.RunPrefix | loggingredactor/redacting_filter.py:53 | A run of exactly `n` digits at the front of the text is one match and becomes the mask. Scanning resumes after it. |
| DigitRuns.DigitFreePrefix | loggingredactor/redacting_filter.py:53 | A prefix with no digits is copied through unchanged, and scanning resumes after it. |
| Scenarios.SuitePatternsIdempotent | loggingredactor/redacting_filter.py:52-53 | The suite's pattern list `[\d{n}]` with mask `****` is idempotent: a second pass changes nothing. |
| Scenarios.SuiteFilterIdempotent | loggingredactor/redacting_filter.py:22-55 | Under the suite's filter (`\d{n}` with `n > 0`, mask `****`, masked key `phonenumber`), filtering a record twice gives the same record as filtering it once. |
| Scenarios.NoArgsMessage | tests/test_redacting_filter.py:24-28 | A message `a + dd + b` with a two-digit run between digit-free texts becomes `a + "****" + b` under `\d{2}` (`foo12bar` becomes `foo****bar`). |
| Scenarios.PositionalArgs | tests/test_redacting_filter.py:32-37 | Positional args made of three digits and four digits become `****` and `****` followed by the fourth digit (`123`, `4567` become `****`, `****7`). |
| Scenarios.NamedArgsWithMaskedKey | tests/test_redacting_filter.py:58-62 | In dict args, `phonenumber` is masked outright, and a digit-free `firstname` is kept. |
| Scenarios.IntAttribute | tests/test_redacting_filter.py:74-78 | An extra attribute holding a three-digit int becomes the string `****`. |
| Scenarios.FloatAttribute | tests/test_redacting_filter.py:82-87 | An extra attribute holding an object whose `str()` is three digits followed by digit-free text, such as the float `123.6`, becomes that text with the digits masked (`****.6`). |
| Scenarios.MaskedKeyWithoutMatch | tests/test_redacting_filter.py:150-154 | A top-level `phonenumber` attribute becomes `****` even when no pattern matches it. |
| Scenarios.NestedMaskedKeyIsKept | loggingredactor/redacting_filter.py:39-41 | A `phonenumber` entry nested inside a dict attribute is not key-masked. A digit-free value is left as it is. |
| Scenarios.NestedListInDict | tests/test_redacting_filter.py:122-131 | A list nested in a dict attribute keeps its order. A digit-free word is kept, and three digits become `****`. |

## Left out

- Regular expressions: a pattern is any function from (mask, text) to text. Leftmost non-overlapping matching, lookbehind and the other regex features are not modelled, apart from the `\d{n}` family. In that family, `\d` means an ASCII digit, while Python's `\d` also matches other Unicode decimal digits.
- Patterns: the constructor stores the patterns as given (line 18) and never compiles them. A pattern given as a string is compiled by `re.sub` at line 53, so an invalid one raises `re.error` each time a truthy scalar under an unmasked key is redacted. A pattern here is a total function, so this error is not modelled.
- Patterns: a pattern is a total function, so the `re.error` that `re.sub` raises on a bad escape in the mask (for example `default_mask=r'\q'`) is not modelled. The constructor never compiles the mask, so in the source this error surfaces when a record is redacted.
- FilterRecord, Filtered and FilterKeepsShape: they take only records with no `args` entry among the attributes. In Python, `vars(record)['args']` and `record.args` are one object. The model holds that object once, in the record's arguments, so an `args` attribute held a second time would be a copy that filtering leaves stale.
- DigitRuns: the mask is inserted literally. Python's `re.sub` reads it as a replacement template and expands its backslash escapes (`\n`, `\\`, `\g<0>`). The `\d{n}` lemmas therefore describe Python only for a mask without a backslash, such as the `****` the test suite uses.
- NewFilter: mask keys are strings here. Python accepts any hashable mask key (line 20). A `None` mask key is not modelled: it would mask every truthy scalar redacted without a key (positional args at line 33, and the values nested in dicts and lists at lines 41 and 45).
- PyText.Text: Python refuses `str()` of an int with more than 4300 digits, the default `int_max_str_digits` limit, which `sys.set_int_max_str_digits` can change. Such an int makes line 51 raise `ValueError`, and the error escapes `filter`. That error is not modelled: `Text` writes the numeral of every int.
- NewFilter: a list or dict `default_mask` is not accepted as such, because Python's `str()` of containers (their repr) is not modelled. Its repr can be passed as an `Other` value.
- Floats, sets, frozensets, bytes and instances of other classes are one case of `Value`, given by their `str()` text and their truth value. How Python computes those two (`float.__repr__`, `__bool__`, `__len__`, `__str__`) is not modelled. The source does not recurse into them (line 43 tests only for list and tuple), and neither does the model.
- Dict keys in payloads are strings. Python allows other hashable keys.
- In-place mutation and aliasing. The source rewrites dicts and lists in place, so a caller's containers change. This contradicts the test suite's checks that they stay unchanged. The model returns new values and proves nothing about aliasing.
- Tuples nested inside a payload are modelled as lists. In the source, the in-place assignment on a non-empty nested tuple raises `TypeError`. The positional args tuple itself is rebuilt, and the model covers it.
- The `logging` plumbing is not modelled: `vars(record)` (a record holds its attributes other than `args` in a map, and `args` once, on its own), the host unwrapping a single dict argument into `record.args`, message formatting, and the base class constructor. A record is a map of attributes plus args that are either positional or named. The scenarios state the tests' expectations on the redacted args and `msg` attribute, not on the formatted message.
- Cyclic payloads cannot be expressed, since `Value` is an inductive datatype. The source recurses without bound on them.
- Dict iteration order is not modelled. Each entry is redacted on its own, so the order does not affect the result.
- `setup.py` is packaging metadata.

=== FILE: digit_runs.dfy ===
/** A concrete pattern: `re.sub(r'\d{n}', mask, text)`, the pattern family
    every test in the suite uses except the lookbehind one (`\d{2}`, `\d{3}`),
    with `\d` read as an ASCII digit.
    Matching is leftmost and non-overlapping: scanning resumes after each match.
    The mask is inserted as it is, which is what Python does for a mask with no
    backslash in it. */
module DigitRuns {
  import opened PyText
  import opened Patterns

  /** How many digits `s` starts with. */
  function LeadingDigits(s: string): (k: nat)
    ensures k <= |s|
    ensures k < |s| ==> !IsDigit(s[k])
    decreases |s|
  {
    if s != [] && IsDigit(s[0]) then 1 + LeadingDigits(s[1..]) else 0
  }

  /** `re.sub(r'\d{n}', mask, text)`. A match of `\d{n}` starts at the front of
      the text exactly when the text starts with at least `n` digits. For
      `n == 0` every position holds an empty match, so the mask goes before each
      character and at the end. */
  function SubDigitRuns(n: nat, mask: string, text: string): string
    decreases |text|
  {
    if n == 0 then
      if text == [] then mask else mask + [text[0]] + SubDigitRuns(n, mask, text[1..])
    else if LeadingDigits(text) >= n then
      mask + SubDigitRuns(n, mask, text[n..])
    else if text == [] then []
    else [text[0]] + SubDigitRuns(n, mask, text[1..])
  }

  /** The compiled pattern `\d{n}`. */
  function DigitRun(n: nat): Pattern {
    (mask, text) => SubDigitRuns(n, mask, text)
  }

  /** No position of `s` starts a run of `n` digits: `\d{n}` finds no match. */
  predicate NoRun(n: nat, s: string)
    decreases |s|
  {
    LeadingDigits(s) < n && (s == [] || NoRun(n, s[1..]))
  }

  predicate DigitFree(s: string) {
    forall i :: 0 <= i < |s| ==> !IsDigit(s[i])
  }

  /** Text in which `\d{n}` finds no match passes through unchanged. */
  lemma {:induction false} NoRunUnchanged(n: nat, mask: string, s: string)
    requires NoRun(n, s)
    ensures SubDigitRuns(n, mask, s) == s
    decreases |s|
  {
    if s != [] {
      NoRunUnchanged(n, mask, s[1..]);
      assert [s[0]] + s[1..] == s;
    }
  }

  lemma {:induction false} NoRunAfterDigitFree(n: nat, a: string, b: string)
    requires n > 0 && DigitFree(a) && NoRun(n, b)
    ensures NoRun(n, a + b)
    decreases |a|
  {
    if a != [] {
      assert (a + b)[1..] == a[1..] + b;
      NoRunAfterDigitFree(n, a[1..], b);
    } else {
      assert a + b == b;
    }
  }

  /** The output starts with no more digits than the input does, and with
      fewer than `n` of them. */
  lemma {:induction false} SubLeadingDigits(n: nat, mask: string, s: string)
    requires n > 0 && DigitFree(mask)
    ensures LeadingDigits(SubDigitRuns(n, mask, s)) <= LeadingDigits(s)
    ensures LeadingDigits(SubDigitRuns(n, mask, s)) < n
    decreases |s|
  {
    var out := SubDigitRuns(n, mask, s);
    if LeadingDigits(s) >= n {
      SubLeadingDigits(n, mask, s[n..]);
      if mask == [] {
        assert out == SubDigitRuns(n, mask, s[n..]);
      } else {
        assert out[0] == mask[0];
      }
    } else if s != [] {
      var rest := SubDigitRuns(n, mask, s[1..]);
      SubLeadingDigits(n, mask, s[1..]);
      assert out == [s[0]] + rest;
      assert out[1..] == rest;
      if IsDigit(s[0]) {
        assert LeadingDigits(s) == 1 + LeadingDigits(s[1..]);
      }
    }
  }

  /** With a mask that holds no digit, every match is masked: `\d{n}` finds
      nothing left to match in the output. */
  lemma {:induction false} SubLeavesNoRun(n: nat, mask: string, s: string)
    requires n > 0 && DigitFree(mask)
    ensures NoRun(n, SubDigitRuns(n, mask, s))
    decreases |s|
  {
    var out := SubDigitRuns(n, mask, s);
    SubLeadingDigits(n, mask, s);
    if LeadingDigits(s) >= n {
      SubLeavesNoRun(n, mask, s[n..]);
      NoRunAfterDigitFree(n, mask, SubDigitRuns(n, mask, s[n..]));
    } else if s != [] {
      SubLeavesNoRun(n, mask, s[1..]);
      assert out[1..] == SubDigitRuns(n, mask, s[1..]);
    }
  }

  /** Masking is idempotent when the mask holds no digit: a second pass of the
      same pattern finds nothing to change. */
  lemma SubDigitRunsIdempotent(n: nat, mask: string, s: string)
    requires n > 0 && DigitFree(mask)
    ensures SubDigitRuns(n, mask, SubDigitRuns(n, mask, s)) == SubDigitRuns(n, mask, s)
  {
    SubLeavesNoRun(n, mask, s);
    NoRunUnchanged(n, mask, SubDigitRuns(n, mask, s));
  }

  /** A digit-free prefix is copied through and scanning resumes after it. */
  lemma {:induction false} DigitFreePrefix(n: nat, mask: string, a: string, b: string)
    requires n > 0 && DigitFree(a)
    ensures SubDigitRuns(n, mask, a + b) == a + SubDigitRuns(n, mask, b)
    decreases |a|
  {
    if a == [] {
      assert a + b == b;
    } else {
      var s := a + b;
      assert s[0] == a[0];
      assert LeadingDigits(s) == 0;
      SkipStep(n, mask, s);
      assert s[1..] == a[1..] + b;
      assert DigitFree(a[1..]) by {
        forall i | 0 <= i < |a| - 1
          ensures !IsDigit(a[1..][i])
        {
          assert a[1..][i] == a[i + 1];
        }
      }
      DigitFreePrefix(n, mask, a[1..], b);
      var rest := SubDigitRuns(n, mask, b);
      calc {
        SubDigitRuns(n, mask, s);
        [a[0]] + (a[1..] + rest);
        ([a[0]] + a[1..]) + rest;
        { assert [a[0]] + a[1..] == a; }
        a + rest;
      }
    }
  }

  lemma {:induction false} LeadingDigitsOfDigits(d: string, b: string)
    requires AllDigits(d)
    ensures LeadingDigits(d + b) >= |d|
    ensures b != [] && !IsDigit(b[0]) ==> LeadingDigits(d + b) == |d|
    ensures b == [] ==> LeadingDigits(d + b) == |d|
    decreases |d|
  {
    if d == [] {
      assert d + b == b;
    } else {
      assert (d + b)[1..] == d[1..] + b;
      LeadingDigitsOfDigits(d[1..], b);
    }
  }

  /** Where no match starts, the first character is copied and scanning moves on. */
  lemma SkipStep(n: nat, mask: string, s: string)
    requires n > 0 && s != [] && LeadingDigits(s) < n
    ensures SubDigitRuns(n, mask, s) == [s[0]] + SubDigitRuns(n, mask, s[1..])
  {
  }

  /** A run of exactly `n` digits at the front is one match: it becomes the mask. */
  lemma RunPrefix(n: nat, mask: string, d: string, b: string)
    requires n > 0 && |d| == n && AllDigits(d)
    ensures SubDigitRuns(n, mask, d + b) == mask + SubDigitRuns(n, mask, b)
  {
    LeadingDigitsOfDigits(d, b);
    assert (d + b)[n..] == b;
  }

  /** A text shorter than `n` holds no match of `\d{n}`. */
  lemma {:induction false} ShortTextNoRun(n: nat, s: string)
    requires |s| < n
    ensures NoRun(n, s)
    decreases |s|
  {
    if s != [] {
      ShortTextNoRun(n, s[1..]);
    }
  }
}

=== FILE: patterns.dfy ===
/** Pattern substitution, left abstract. A compiled pattern is modelled by what
    `re.sub(pattern, mask, text)` does with it: a function from the mask and the
    text to the rewritten text. Nothing here depends on how matches are found. */
module Patterns {

  type Pattern = (string, string) -> string

  /** Every pattern in list order, each one rewriting the text the previous
      ones left: `for pattern in patterns: content = re.sub(pattern, mask, content)`. */
  function ApplyPatterns(patterns: seq<Pattern>, mask: string, text: string): (r: string)
    ensures patterns == [] ==> r == text
    ensures |patterns| == 1 ==> r == patterns[0](mask, text)
    decreases |patterns|
  {
    if patterns == [] then text
    else ApplyPatterns(patterns[1..], mask, patterns[0](mask, text))
  }

  /** Running two pattern lists one after the other is running their
      concatenation: the later list sees what the earlier one produced. */
  lemma {:induction false} ApplyPatternsConcat(ps: seq<Pattern>, qs: seq<Pattern>, mask: string, text: string)
    ensures ApplyPatterns(ps + qs, mask, text)
         == ApplyPatterns(qs, mask, ApplyPatterns(ps, mask, text))
    decreases |ps|
  {
    if ps != [] {
      assert (ps + qs)[1..] == ps[1..] + qs;
      ApplyPatternsConcat(ps[1..], qs, mask, ps[0](mask, text));
    } else {
      assert ps + qs == qs;
    }
  }

  /** The last pattern runs last, on the output of all the ones before it. */
  lemma LastPatternRunsLast(ps: seq<Pattern>, p: Pattern, mask: string, text: string)
    ensures ApplyPatterns(ps + [p], mask, text) == p(mask, ApplyPatterns(ps, mask, text))
  {
    ApplyPatternsConcat(ps, [p], mask, text);
  }

  /** With patterns `[p1, p2]`, `p1`'s matches are masked before `p2` is
      evaluated on the result. */
  lemma TwoPatternsInOrder(p1: Pattern, p2: Pattern, mask: string, text: string)
    ensures ApplyPatterns([p1, p2], mask, text) == p2(mask, p1(mask, text))
  {
    assert [p1, p2][1..] == [p2];
  }

  /** A pattern that leaves the text unchanged can be dropped from the list. */
  lemma {:induction false} IdlePatternDrops(ps: seq<Pattern>, p: Pattern, qs: seq<Pattern>, mask: string, text: string)
    requires p(mask, ApplyPatterns(ps, mask, text)) == ApplyPatterns(ps, mask, text)
    ensures ApplyPatterns(ps + [p] + qs, mask, text) == ApplyPatterns(ps + qs, mask, text)
  {
    ApplyPatternsConcat(ps + [p], qs, mask, text);
    LastPatternRunsLast(ps, p, mask, text);
    ApplyPatternsConcat(ps, qs, mask, text);
  }
}

=== FILE: pytext.dfy ===
/** Python's `str()` of the scalar values a log record can carry. */
module PyText {
  import opened Values

  predicate IsDigit(c: char) {
    '0' <= c <= '9'
  }

  predicate AllDigits(s: string) {
    forall i :: 0 <= i < |s| ==> IsDigit(s[i])
  }

  function DigitChar(d: nat): (c: char)
    requires d < 10
    ensures IsDigit(c)
  {
    (d + '0' as int) as char
  }

  function DigitValue(c: char): nat
    requires IsDigit(c)
  {
    c as int - '0' as int
  }

  /** A decimal numeral as Python writes one: at least one digit, and no
      leading zero unless the numeral is `0` itself. */
  predicate Numeral(s: string) {
    |s| > 0 && AllDigits(s) && (|s| > 1 ==> s[0] != '0')
  }

  /** The decimal numeral of `n`, most significant digit first. */
  function NatToString(n: nat): (r: string)
    ensures Numeral(r)
    decreases n
  {
    if n < 10 then [DigitChar(n)] else NatToString(n / 10) + [DigitChar(n % 10)]
  }

  /** The number a non-empty run of decimal digits denotes. */
  function DigitsValue(s: string): nat
    requires AllDigits(s)
    decreases |s|
  {
    if s == [] then 0 else DigitsValue(s[..|s| - 1]) * 10 + DigitValue(s[|s| - 1])
  }

  /** Python's `str(i)` for an int: a minus sign for a negative int, then the
      numeral of its magnitude. */
  function IntToString(i: int): (r: string)
    ensures i >= 0 ==> Numeral(r) && DigitsValue(r) == i
    ensures i < 0 ==> |r| > 1 && r[0] == '-' && Numeral(r[1..]) && DigitsValue(r[1..]) == -i
  {
    if i < 0 then
      DigitsValueOfNatToString(-i);
      assert ("-" + NatToString(-i))[1..] == NatToString(-i);
      "-" + NatToString(-i)
    else
      DigitsValueOfNatToString(i);
      NatToString(i)
  }

  /** Reads back what `IntToString` writes: an optional minus sign followed by
      at least one digit. */
  function ParseInt(s: string): Option<int> {
    if |s| > 1 && s[0] == '-' && AllDigits(s[1..]) then Some(0 - DigitsValue(s[1..]) as int)
    else if |s| > 0 && AllDigits(s) then Some(DigitsValue(s))
    else None
  }

  lemma {:induction false} DigitsValueOfNatToString(n: nat)
    ensures DigitsValue(NatToString(n)) == n
    decreases n
  {
    var s := NatToString(n);
    if n >= 10 {
      var p := NatToString(n / 10);
      assert s == p + [DigitChar(n % 10)];
      assert s[..|s| - 1] == p;
      DigitsValueOfNatToString(n / 10);
    }
  }

  /** `str(i)` loses nothing: parsing it gives back `i`. */
  lemma ParseIntToString(i: int)
    ensures ParseInt(IntToString(i)) == Some(i)
  {
    var r := IntToString(i);
    if i >= 0 {
      assert r[0] != '-';
    }
  }

  /** A numeral whose first digit is not `0` denotes a positive number. */
  lemma {:induction false} LeadingDigitPositive(s: string)
    requires |s| > 0 && AllDigits(s) && s[0] != '0'
    ensures DigitsValue(s) >= 1
    decreases |s|
  {
    if |s| > 1 {
      var p := s[..|s| - 1];
      assert p[0] == s[0];
      LeadingDigitPositive(p);
    }
  }

  /** There is one numeral per number: every numeral is the one `NatToString`
      writes for the number it denotes. */
  lemma {:induction false} NumeralIsNatToString(s: string)
    requires Numeral(s)
    ensures NatToString(DigitsValue(s)) == s
    decreases |s|
  {
    var d := DigitValue(s[|s| - 1]);
    if |s| == 1 {
      assert DigitsValue(s) == d;
      assert [DigitChar(d)] == s;
    } else {
      var p := s[..|s| - 1];
      assert p[0] == s[0];
      assert Numeral(p);
      LeadingDigitPositive(p);
      NumeralIsNatToString(p);
      var v := DigitsValue(s);
      assert v == DigitsValue(p) * 10 + d;
      assert v / 10 == DigitsValue(p) && v % 10 == d;
      assert DigitChar(d) == s[|s| - 1];
      assert p + [s[|s| - 1]] == s;
    }
  }

  /** The text a truthy scalar is rewritten from: a string is kept as it is,
      any other scalar goes through Python's `str()`. */
  function Text(v: Value): (r: string)
    requires v.IsScalar()
    ensures v.Str? ==> r == v.s
    ensures v.Int? && v.i >= 0 ==> Numeral(r) && DigitsValue(r) == v.i
    ensures v.Int? && v.i < 0 ==> |r| > 1 && r[0] == '-' && Numeral(r[1..]) && DigitsValue(r[1..]) == -v.i
    ensures v.Int? ==> ParseInt(r) == Some(v.i)
    ensures v.Bool? ==> r == (if v.b then "True" else "False")
    ensures v.Null? ==> r == "None"
    ensures v.Other? ==> r == v.text
  {
    match v
    case Str(s) => s
    case Int(i) => ParseIntToString(i); IntToString(i)
    case Bool(b) => if b then "True" else "False"
    case Null => "None"
    case Other(t, _) => t
  }
}

=== FILE: redacting_filter.dfy ===
/** The redacting log filter: a policy (patterns, mask, keys to mask), the
    recursive rewrite of a payload, and the per-record pass over a log record's
    attributes and its message arguments. Redaction builds new values where the
    original rewrites containers in place. */
module RedactingFilter {
  import opened Values
  import opened PyText
  import opened Patterns

  /** Record attributes the filter never touches: the logging machinery's own
      bookkeeping, and `args`, which gets its own treatment. */
  const IgnoreKeys: set<string> := {
    "name", "levelname", "levelno", "pathname", "filename", "module",
    "exc_info", "exc_text", "stack_info", "lineno", "funcName", "created",
    "msecs", "relativeCreated", "thread", "threadName", "process",
    "processName", "args"
  }

  /** The mask a filter gets when none is given (`default_mask='****'`). */
  const DefaultMask: string := "****"

  datatype Filter = Filter(patterns: seq<Pattern>, mask: string, maskKeys: set<string>)

  /** The constructor: the mask is stored as `str(default_mask)`, and a missing
      `mask_keys` means no key is masked. */
  function NewFilter(patterns: seq<Pattern>, defaultMask: Value, maskKeys: Option<seq<string>>): (f: Filter)
    requires defaultMask.IsScalar()
    ensures f.patterns == patterns
    ensures f.mask == Text(defaultMask)
    ensures defaultMask.Str? ==> f.mask == defaultMask.s
    ensures defaultMask.Int? ==> ParseInt(f.mask) == Some(defaultMask.i)
    ensures defaultMask.Bool? ==> f.mask == (if defaultMask.b then "True" else "False")
    ensures defaultMask.Null? ==> f.mask == "None"
    ensures forall k :: k in f.maskKeys <==> maskKeys.Some? && k in maskKeys.value
    ensures maskKeys.None? ==> f.maskKeys == {}
  {
    var keys := match maskKeys
      case None => {}
      case Some(ks) => set k | k in ks;
    Filter(patterns, Text(defaultMask), keys)
  }

  /** The constructor called without `default_mask`: the mask is `****`. */
  function NewFilterDefaultMask(patterns: seq<Pattern>, maskKeys: Option<seq<string>>): (f: Filter)
    ensures f.patterns == patterns
    ensures f.mask == "****"
    ensures forall k :: k in f.maskKeys <==> maskKeys.Some? && k in maskKeys.value
  {
    NewFilter(patterns, Str(DefaultMask), maskKeys)
  }

  predicate KeyMasked(f: Filter, key: Option<string>) {
    key.Some? && key.value in f.maskKeys
  }

  /** What happens to a value that is not a non-empty container: a falsy value
      is kept, a value under a masked key becomes the mask, anything else is
      turned into text and run through the patterns. */
  function RedactLeaf(f: Filter, content: Value, key: Option<string>): (r: Value)
    requires !(content.IsContainer() && content.Truthy())
    ensures !content.Truthy() ==> r == content
    ensures content.Truthy() && KeyMasked(f, key) ==> r == Str(f.mask)
    ensures content.Truthy() && !KeyMasked(f, key)
            ==> r == Str(ApplyPatterns(f.patterns, f.mask, Text(content)))
    ensures f.patterns == [] && content.Str? && !KeyMasked(f, key) ==> r == content
  {
    if !content.Truthy() then content
    else if KeyMasked(f, key) then Str(f.mask)
    else Str(ApplyPatterns(f.patterns, f.mask, Text(content)))
  }

  /** `redact(content, key)`: dict values and list elements are redacted with
      no key, so key masking only ever applies to the value directly under
      `key`. */
  function Redact(f: Filter, content: Value, key: Option<string>): (r: Value)
    ensures !content.Truthy() ==> r == content
    ensures content.IsScalar() && content.Truthy() && KeyMasked(f, key) ==> r == Str(f.mask)
    ensures content.IsScalar() && content.Truthy() && !KeyMasked(f, key)
            ==> r == Str(ApplyPatterns(f.patterns, f.mask, Text(content)))
    ensures content.Map? ==> r.Map? && r.entries.Keys == content.entries.Keys
    ensures content.List? ==> r.List? && |r.items| == |content.items|
    ensures content.IsScalar() ==> r.IsScalar()
    decreases content, 1
  {
    match content
    case Map(m) => if |m| == 0 then content else Map(RedactEntries(f, m))
    case List(xs) => if |xs| == 0 then content else List(RedactItems(f, xs))
    case _ => RedactLeaf(f, content, key)
  }

  /** The values of a dict, each redacted with no key. */
  function RedactEntries(f: Filter, m: map<string, Value>): (r: map<string, Value>)
    ensures r.Keys == m.Keys
    ensures forall k :: k in m ==> r[k] == Redact(f, m[k], None)
    decreases Map(m), 0
  {
    map k | k in m :: Redact(f, m[k], None)
  }

  /** The elements of a list, each redacted with no key, in order. */
  function RedactItems(f: Filter, xs: seq<Value>): (r: seq<Value>)
    ensures |r| == |xs|
    ensures forall i :: 0 <= i < |xs| ==> r[i] == Redact(f, xs[i], None)
    decreases List(xs), 0
  {
    seq(|xs|, i requires 0 <= i < |xs| => Redact(f, xs[i], None))
  }

  /** Redaction keeps the nesting of its input: the same dict keys and list
      lengths all the way down, and a scalar wherever there was one. */
  lemma {:induction false} RedactKeepsShape(f: Filter, v: Value, key: Option<string>)
    ensures SameShape(v, Redact(f, v, key))
    decreases v
  {
    var r := Redact(f, v, key);
    match v
    case List(xs) =>
      forall i | 0 <= i < |xs|
        ensures SameShape(xs[i], r.items[i])
      {
        RedactKeepsShape(f, xs[i], None);
      }
    case Map(m) =>
      forall k | k in m
        ensures SameShape(m[k], r.entries[k])
      {
        RedactKeepsShape(f, m[k], None);
      }
    case _ =>
  }

  /** Redaction rewrites a value leaf by leaf. Every path into the input exists
      in the output and vice versa, and what sits at the end of a path that ends
      on a leaf is that leaf redacted on its own, with the caller's `key` for the
      top-level value and with no key at any depth below it. */
  lemma {:induction false} RedactAtPath(f: Filter, v: Value, key: Option<string>, path: seq<Step>)
    ensures Lookup(Redact(f, v, key), path).Some? <==> Lookup(v, path).Some?
    ensures Lookup(v, path).Some? && !(Lookup(v, path).value.IsContainer() && Lookup(v, path).value.Truthy())
            ==> Lookup(Redact(f, v, key), path)
                == Some(RedactLeaf(f, Lookup(v, path).value, if path == [] then key else None))
    decreases |path|
  {
    if path != [] {
      var r := Redact(f, v, key);
      match path[0]
      case Index(i) =>
        if v.List? && i < |v.items| {
          RedactNonEmptyList(f, v.items, key);
          RedactAtPath(f, v.items[i], None, path[1..]);
          if path[1..] == [] {
            assert Lookup(v.items[i], path[1..]) == Some(v.items[i]);
          }
        }
      case Key(k) =>
        if v.Map? && k in v.entries {
          RedactNonEmptyMap(f, v.entries, k, key);
          RedactAtPath(f, v.entries[k], None, path[1..]);
        }
    }
  }

  lemma RedactNonEmptyList(f: Filter, xs: seq<Value>, key: Option<string>)
    requires xs != []
    ensures Redact(f, List(xs), key) == List(RedactItems(f, xs))
  {
  }

  lemma RedactNonEmptyMap(f: Filter, m: map<string, Value>, k: string, key: Option<string>)
    requires k in m
    ensures Redact(f, Map(m), key) == Map(RedactEntries(f, m))
  {
    assert k in m.Keys;
  }

  /** Below the top level the mask keys play no part: a value redacted with no
      key comes out the same whatever the filter's mask keys are, so a masked
      name nested inside a dict is only pattern-masked. */
  lemma {:induction false} NestedKeysNotMasked(f: Filter, v: Value, keys: set<string>)
    ensures Redact(f, v, None) == Redact(f.(maskKeys := keys), v, None)
    decreases v
  {
    var g := f.(maskKeys := keys);
    match v
    case List(xs) =>
      forall i | 0 <= i < |xs|
        ensures Redact(f, xs[i], None) == Redact(g, xs[i], None)
      {
        NestedKeysNotMasked(f, xs[i], keys);
      }
      SameItemsSameList(f, g, xs);
    case Map(m) =>
      forall k | k in m
        ensures Redact(f, m[k], None) == Redact(g, m[k], None)
      {
        NestedKeysNotMasked(f, m[k], keys);
      }
      SameEntriesSameMap(f, g, m);
    case _ =>
  }

  /** Two filters that agree on every element of a list agree on the list. */
  lemma SameItemsSameList(f: Filter, g: Filter, xs: seq<Value>)
    requires forall i :: 0 <= i < |xs| ==> Redact(f, xs[i], None) == Redact(g, xs[i], None)
    ensures Redact(f, List(xs), None) == Redact(g, List(xs), None)
  {
    SameItems(f, g, xs);
  }

  lemma SameItems(f: Filter, g: Filter, xs: seq<Value>)
    requires forall i :: 0 <= i < |xs| ==> Redact(f, xs[i], None) == Redact(g, xs[i], None)
    ensures RedactItems(f, xs) == RedactItems(g, xs)
  {
  }

  /** Two filters that agree on every value of a dict agree on the dict. */
  lemma SameEntriesSameMap(f: Filter, g: Filter, m: map<string, Value>)
    requires forall k :: k in m ==> Redact(f, m[k], None) == Redact(g, m[k], None)
    ensures Redact(f, Map(m), None) == Redact(g, Map(m), None)
  {
    SameEntries(f, g, m);
  }

  lemma SameEntries(f: Filter, g: Filter, m: map<string, Value>)
    requires forall k :: k in m ==> Redact(f, m[k], None) == Redact(g, m[k], None)
    ensures RedactEntries(f, m) == RedactEntries(g, m)
  {
  }

  /** Running the pattern list a second time changes nothing. */
  ghost predicate PatternsIdempotent(f: Filter) {
    forall t :: ApplyPatterns(f.patterns, f.mask, ApplyPatterns(f.patterns, f.mask, t))
                == ApplyPatterns(f.patterns, f.mask, t)
  }

  /** When a second pass of the patterns changes nothing, a second redaction
      with the same key changes nothing either: a masked value is the mask,
      which is masked to itself or is empty and so falsy, and a pattern-masked
      text is left as it is. */
  lemma {:induction false} RedactIdempotent(f: Filter, v: Value, key: Option<string>)
    requires PatternsIdempotent(f)
    ensures Redact(f, Redact(f, v, key), key) == Redact(f, v, key)
    decreases v
  {
    match v
    case List(xs) =>
      if xs != [] {
        var ys := RedactItems(f, xs);
        RedactNonEmptyList(f, xs, key);
        RedactNonEmptyList(f, ys, key);
        forall i | 0 <= i < |ys|
          ensures Redact(f, ys[i], None) == ys[i]
        {
          RedactIdempotent(f, xs[i], None);
        }
        ItemsFixed(f, ys);
      }
    case Map(m) =>
      if m != map[] {
        var k0 :| k0 in m;
        var n := RedactEntries(f, m);
        RedactNonEmptyMap(f, m, k0, key);
        RedactNonEmptyMap(f, n, k0, key);
        forall k | k in n
          ensures Redact(f, n[k], None) == n[k]
        {
          RedactIdempotent(f, m[k], None);
        }
        EntriesFixed(f, n);
      }
    case Null =>
    case _ =>
      if v.Truthy() && !KeyMasked(f, key) {
        var t := ApplyPatterns(f.patterns, f.mask, Text(v));
        assert ApplyPatterns(f.patterns, f.mask, t) == t;
      }
  }

  lemma ItemsFixed(f: Filter, xs: seq<Value>)
    requires forall i :: 0 <= i < |xs| ==> Redact(f, xs[i], None) == xs[i]
    ensures RedactItems(f, xs) == xs
  {
  }

  lemma EntriesFixed(f: Filter, m: map<string, Value>)
    requires forall k :: k in m ==> Redact(f, m[k], None) == m[k]
    ensures RedactEntries(f, m) == m
  {
  }

  /** The message arguments: a dict of named values, or the positional tuple. */
  datatype Args = Positional(items: seq<Value>) | Named(entries: map<string, Value>)

  /** A log record: its attributes (`vars(record)` without `args`) and its
      arguments. `record.args` is itself an attribute in Python; it is held
      once, in `args`, so a well-formed record has no `args` entry in `attrs`. */
  datatype LogRecord = LogRecord(attrs: map<string, Value>, args: Args)
  {
    predicate Valid() {
      "args" !in attrs
    }
  }

  /** Every entry of `m` replaced by `rewrite(key, value)`. */
  function RewriteEntries(m: map<string, Value>, rewrite: (string, Value) -> Value): (r: map<string, Value>)
    ensures r.Keys == m.Keys
    ensures forall k :: k in m ==> r[k] == rewrite(k, m[k])
  {
    map k | k in m :: rewrite(k, m[k])
  }

  /** Every element of `xs` replaced by `rewrite(element)`, in order. */
  function RewriteItems(xs: seq<Value>, rewrite: Value -> Value): (r: seq<Value>)
    ensures |r| == |xs|
    ensures forall i :: 0 <= i < |xs| ==> r[i] == rewrite(xs[i])
  {
    seq(|xs|, i requires 0 <= i < |xs| => rewrite(xs[i]))
  }

  /** One attribute after the filter: untouched when its name is ignored,
      otherwise redacted with its name as the key. */
  function RedactAttr(f: Filter, name: string, v: Value): Value {
    if name in IgnoreKeys then v else Redact(f, v, Some(name))
  }

  function AttrRewrite(f: Filter): (string, Value) -> Value {
    (name, v) => RedactAttr(f, name, v)
  }

  /** A named argument is redacted with its own name as the key. */
  function NamedArgRewrite(f: Filter): (string, Value) -> Value {
    (name, v) => Redact(f, v, Some(name))
  }

  /** A positional argument is redacted with no key. */
  function PositionalArgRewrite(f: Filter): Value -> Value {
    v => Redact(f, v, None)
  }

  function RedactAttrs(f: Filter, attrs: map<string, Value>): (r: map<string, Value>)
    ensures r.Keys == attrs.Keys
    ensures forall k :: k in attrs && k in IgnoreKeys ==> r[k] == attrs[k]
    ensures forall k :: k in attrs && k !in IgnoreKeys ==> r[k] == Redact(f, attrs[k], Some(k))
  {
    RewriteEntries(attrs, AttrRewrite(f))
  }

  function RedactArgs(f: Filter, args: Args): (r: Args)
    ensures args.Named? ==> r.Named? && r.entries.Keys == args.entries.Keys
    ensures args.Named? ==> forall k :: k in args.entries ==> r.entries[k] == Redact(f, args.entries[k], Some(k))
    ensures args.Positional? ==> r.Positional? && |r.items| == |args.items|
    ensures args.Positional? ==> forall i :: 0 <= i < |args.items| ==> r.items[i] == Redact(f, args.items[i], None)
  {
    match args
    case Named(m) => Named(RewriteEntries(m, NamedArgRewrite(f)))
    case Positional(xs) => Positional(RewriteItems(xs, PositionalArgRewrite(f)))
  }

  /** `filter(record)`: the record with its attributes and arguments redacted,
      and the verdict, which always keeps the record. */
  function FilterRecord(f: Filter, record: LogRecord): (r: (bool, LogRecord))
    requires record.Valid()
    ensures r.0 && r.1.Valid()
    ensures r.1.attrs.Keys == record.attrs.Keys
    ensures forall k :: k in record.attrs && k in IgnoreKeys ==> r.1.attrs[k] == record.attrs[k]
    ensures forall k :: (k in record.attrs && k !in IgnoreKeys
                         ==> r.1.attrs[k] == Redact(f, record.attrs[k], Some(k)))
    ensures record.args.Named? ==> r.1.args.Named? && r.1.args.entries.Keys == record.args.entries.Keys
    ensures record.args.Named? ==>
              forall k :: k in record.args.entries ==> r.1.args.entries[k] == Redact(f, record.args.entries[k], Some(k))
    ensures record.args.Positional? ==> r.1.args.Positional? && |r.1.args.items| == |record.args.items|
    ensures record.args.Positional? ==>
              forall i :: 0 <= i < |record.args.items| ==> r.1.args.items[i] == Redact(f, record.args.items[i], None)
  {
    (true, LogRecord(RedactAttrs(f, record.attrs), RedactArgs(f, record.args)))
  }

  /** The filter keeps the shape of every attribute and argument. */
  lemma FilterKeepsShape(f: Filter, record: LogRecord)
    requires record.Valid()
    ensures var out := FilterRecord(f, record).1;
      && (forall k :: k in record.attrs ==> SameShape(record.attrs[k], out.attrs[k]))
      && (record.args.Named? ==>
            forall k :: k in record.args.entries ==> SameShape(record.args.entries[k], out.args.entries[k]))
      && (record.args.Positional? ==>
            forall i :: 0 <= i < |record.args.items| ==> SameShape(record.args.items[i], out.args.items[i]))
  {
    var out := FilterRecord(f, record).1;
    forall k | k in record.attrs
      ensures SameShape(record.attrs[k], out.attrs[k])
    {
      RedactKeepsShape(f, record.attrs[k], Some(k));
      if k in IgnoreKeys {
        SameShapeRefl(record.attrs[k]);
      }
    }
    match record.args
    case Named(m) =>
      forall k | k in m
        ensures SameShape(m[k], out.args.entries[k])
      {
        RedactKeepsShape(f, m[k], Some(k));
      }
    case Positional(xs) =>
      forall i | 0 <= i < |xs|
        ensures SameShape(xs[i], out.args.items[i])
      {
        RedactKeepsShape(f, xs[i], None);
      }
  }

  /** When a second pass of the patterns changes nothing, filtering a record
      a second time changes nothing: every attribute and argument is redacted
      again with the same key it had the first time. */
  lemma FilterIdempotent(f: Filter, record: LogRecord)
    requires PatternsIdempotent(f) && record.Valid()
    ensures var once := FilterRecord(f, record).1;
      FilterRecord(f, once) == (true, once)
  {
    var once := FilterRecord(f, record).1;
    var attrs := once.attrs;
    forall k | k in attrs
      ensures AttrRewrite(f)(k, attrs[k]) == attrs[k]
    {
      if k !in IgnoreKeys {
        RedactIdempotent(f, record.attrs[k], Some(k));
      }
    }
    EntriesRewrittenToThemselves(attrs, AttrRewrite(f));
    match record.args
    case Named(m) =>
      var named := once.args.entries;
      forall k | k in named
        ensures NamedArgRewrite(f)(k, named[k]) == named[k]
      {
        RedactIdempotent(f, m[k], Some(k));
      }
      EntriesRewrittenToThemselves(named, NamedArgRewrite(f));
    case Positional(xs) =>
      var items := once.args.items;
      forall i | 0 <= i < |items|
        ensures PositionalArgRewrite(f)(items[i]) == items[i]
      {
        RedactIdempotent(f, xs[i], None);
      }
      ItemsRewrittenToThemselves(items, PositionalArgRewrite(f));
  }

  lemma EntriesRewrittenToThemselves(m: map<string, Value>, rewrite: (string, Value) -> Value)
    requires forall k :: k in m ==> rewrite(k, m[k]) == m[k]
    ensures RewriteEntries(m, rewrite) == m
  {
  }

  lemma ItemsRewrittenToThemselves(xs: seq<Value>, rewrite: Value -> Value)
    requires forall i :: 0 <= i < |xs| ==> rewrite(xs[i]) == xs[i]
    ensures RewriteItems(xs, rewrite) == xs
  {
  }

  lemma {:induction false} SameShapeRefl(v: Value)
    ensures SameShape(v, v)
    decreases v
  {
    match v
    case List(xs) =>
      forall i | 0 <= i < |xs|
        ensures SameShape(xs[i], xs[i])
      {
        SameShapeRefl(xs[i]);
      }
    case Map(m) =>
      forall k | k in m
        ensures SameShape(m[k], m[k])
      {
        SameShapeRefl(m[k]);
      }
    case _ =>
  }

  /** The source's loop over a dict: each key in turn, in whatever order the
      keys come, has its value replaced in place by `rewrite(key, value)`. */
  method RewriteEntriesLoop(m: map<string, Value>, rewrite: (string, Value) -> Value)
    returns (out: map<string, Value>)
    ensures out == RewriteEntries(m, rewrite)
  {
    out := m;
    var todo := m.Keys;
    while todo != {}
      invariant todo <= m.Keys
      invariant out.Keys == m.Keys
      invariant forall k :: k in todo ==> out[k] == m[k]
      invariant forall k :: k in m && k !in todo ==> out[k] == rewrite(k, m[k])
      decreases todo
    {
      var k :| k in todo;
      out := out[k := rewrite(k, out[k])];
      todo := todo - {k};
    }
  }

  /** The source's rebuild of a tuple: each element rewritten, in order. */
  method RewriteItemsLoop(xs: seq<Value>, rewrite: Value -> Value) returns (out: seq<Value>)
    ensures out == RewriteItems(xs, rewrite)
  {
    out := [];
    var i := 0;
    while i < |xs|
      invariant 0 <= i <= |xs|
      invariant |out| == i
      invariant forall j :: 0 <= j < i ==> out[j] == rewrite(xs[j])
    {
      out := out + [rewrite(xs[i])];
      i := i + 1;
    }
  }

  /** The filter as the source writes it: the loop over the attributes, then
      the loop over the named arguments or the rebuilt positional tuple. The
      source skips an ignored attribute; here the loop writes its value back
      unchanged, which leaves the same record. It computes `FilterRecord`. */
  method Filtered(f: Filter, record: LogRecord) returns (keep: bool, out: LogRecord)
    requires record.Valid()
    ensures keep
    ensures (keep, out) == FilterRecord(f, record)
  {
    var attrs := RewriteEntriesLoop(record.attrs, AttrRewrite(f));
    var args: Args;
    match record.args {
      case Named(m) =>
        var named := RewriteEntriesLoop(m, NamedArgRewrite(f));
        args := Named(named);
      case Positional(xs) =>
        var items := RewriteItemsLoop(xs, PositionalArgRewrite(f));
        args := Positional(items);
    }
    keep := true;
    out := LogRecord(attrs, args);
  }
}

=== FILE: scenarios.dfy ===
/** The test suite's scenarios, stated against the model with the `\d{n}`
    pattern and the suite's filter settings: mask `****`, masked key
    `phonenumber`. */
module Scenarios {
  import opened Values
  import opened PyText
  import opened Patterns
  import opened DigitRuns
  import opened RedactingFilter

  function SuiteFilter(n: nat): (f: Filter)
    ensures f.patterns == [DigitRun(n)]
    ensures f.mask == "****"
    ensures f.maskKeys == {"phonenumber"}
  {
    var f := NewFilter([DigitRun(n)], Str(DefaultMask), Some(["phonenumber"]));
    assert f.maskKeys == {"phonenumber"};
    f
  }

  /** With `\d{n}` and the mask `****`, which holds no digit, a second pass
      of the patterns changes nothing. */
  lemma SuitePatternsIdempotent(n: nat)
    requires n > 0
    ensures PatternsIdempotent(SuiteFilter(n))
  {
    var f := SuiteFilter(n);
    assert DigitFree(f.mask) by {
      forall i | 0 <= i < |f.mask|
        ensures !IsDigit(f.mask[i])
      {
        assert f.mask[i] == '*';
      }
    }
    forall t
      ensures ApplyPatterns(f.patterns, f.mask, ApplyPatterns(f.patterns, f.mask, t))
              == ApplyPatterns(f.patterns, f.mask, t)
    {
      SubDigitRunsIdempotent(n, f.mask, t);
    }
  }

  /** Under the suite's filter, filtering a record a second time changes
      nothing. */
  lemma SuiteFilterIdempotent(n: nat, record: LogRecord)
    requires n > 0 && record.Valid()
    ensures var once := FilterRecord(SuiteFilter(n), record).1;
      FilterRecord(SuiteFilter(n), once).1 == once
  {
    SuitePatternsIdempotent(n);
    FilterIdempotent(SuiteFilter(n), record);
  }

  /** Under the suite's filter, a non-empty string under any key other than
      `phonenumber` is run through `\d{n}`. */
  lemma SuiteString(n: nat, s: string, key: Option<string>)
    requires s != [] && key != Some("phonenumber")
    ensures Redact(SuiteFilter(n), Str(s), key) == Str(SubDigitRuns(n, "****", s))
  {
    var f := SuiteFilter(n);
    assert !KeyMasked(f, key);
    assert ApplyPatterns(f.patterns, f.mask, s) == DigitRun(n)("****", s);
  }

  /** One run of exactly `n` digits between two digit-free texts is masked,
      and nothing else changes. */
  lemma OneRun(n: nat, a: string, d: string, b: string)
    requires n > 0 && DigitFree(a) && |d| == n && AllDigits(d) && DigitFree(b)
    ensures SubDigitRuns(n, "****", a + d + b) == a + "****" + b
  {
    assert a + d + b == a + (d + b);
    DigitFreePrefix(n, "****", a, d + b);
    RunPrefix(n, "****", d, b);
    DigitFreePrefix(n, "****", b, []);
    assert b + [] == b;
  }

  lemma Unmatched(n: nat, s: string)
    requires n > 0 && DigitFree(s)
    ensures SubDigitRuns(n, "****", s) == s
  {
    DigitFreePrefix(n, "****", s, []);
    assert s + [] == s;
  }

  lemma RedactOneEntry(f: Filter, k: string, v: Value, key: Option<string>)
    ensures Redact(f, Map(map[k := v]), key) == Map(map[k := Redact(f, v, None)])
  {
    var m := map[k := v];
    assert k in m.Keys;
    assert Redact(f, Map(m), key).entries == map[k := Redact(f, v, None)];
  }

  lemma RedactTwoItems(f: Filter, a: Value, b: Value, key: Option<string>)
    ensures Redact(f, List([a, b]), key) == List([Redact(f, a, None), Redact(f, b, None)])
  {
    assert Redact(f, List([a, b]), key).items == [Redact(f, a, None), Redact(f, b, None)];
  }

  lemma FilterOneAttr(f: Filter, k: string, v: Value, args: Args)
    requires k != "args"
    ensures FilterRecord(f, LogRecord(map[k := v], args)).1.attrs == map[k := RedactAttr(f, k, v)]
  {
    assert RedactAttrs(f, map[k := v]) == map[k := RedactAttr(f, k, v)];
  }

  lemma FilterTwoPositional(f: Filter, attrs: map<string, Value>, a: Value, b: Value)
    requires "args" !in attrs
    ensures FilterRecord(f, LogRecord(attrs, Positional([a, b]))).1.args
         == Positional([Redact(f, a, None), Redact(f, b, None)])
  {
    assert RedactArgs(f, Positional([a, b])).items == [Redact(f, a, None), Redact(f, b, None)];
  }

  lemma RewriteTwoEntries(k1: string, v1: Value, k2: string, v2: Value, rewrite: (string, Value) -> Value)
    requires k1 != k2
    ensures RewriteEntries(map[k1 := v1, k2 := v2], rewrite) == map[k1 := rewrite(k1, v1), k2 := rewrite(k2, v2)]
  {
    var m := map[k1 := v1, k2 := v2];
    assert m.Keys == {k1, k2};
  }

  lemma FilterTwoNamed(f: Filter, attrs: map<string, Value>, k1: string, v1: Value, k2: string, v2: Value)
    requires "args" !in attrs
    requires k1 != k2
    ensures FilterRecord(f, LogRecord(attrs, Named(map[k1 := v1, k2 := v2]))).1.args
         == Named(map[k1 := Redact(f, v1, Some(k1)), k2 := Redact(f, v2, Some(k2))])
  {
    RewriteTwoEntries(k1, v1, k2, v2, NamedArgRewrite(f));
  }

  /** A message like `foo12bar` under `\d{2}` becomes `foo****bar`. */
  lemma NoArgsMessage(a: string, d: string, b: string)
    requires DigitFree(a) && |d| == 2 && AllDigits(d) && DigitFree(b)
    ensures Redact(SuiteFilter(2), Str(a + d + b), Some("msg")) == Str(a + "****" + b)
  {
    SuiteString(2, a + d + b, Some("msg"));
    OneRun(2, a, d, b);
  }

  lemma ThreeDigitsMasked(d: string)
    requires |d| == 3 && AllDigits(d)
    ensures SubDigitRuns(3, "****", d) == "****"
  {
    RunPrefix(3, "****", d, []);
    assert d + [] == d;
  }

  /** Positional arguments like `('123', '4567')` become `('****', '****7')`:
      the fourth digit is left over after the first match. */
  lemma PositionalArgs(attrs: map<string, Value>, d3: string, d4: string)
    requires "args" !in attrs
    requires |d3| == 3 && AllDigits(d3) && |d4| == 4 && AllDigits(d4)
    ensures FilterRecord(SuiteFilter(3), LogRecord(attrs, Positional([Str(d3), Str(d4)]))).1.args
         == Positional([Str("****"), Str("****" + d4[3..])])
  {
    FilterTwoPositional(SuiteFilter(3), attrs, Str(d3), Str(d4));
    SuiteString(3, d3, None);
    ThreeDigitsMasked(d3);
    SuiteString(3, d4, None);
    assert d4 == d4[..3] + d4[3..];
    RunPrefix(3, "****", d4[..3], d4[3..]);
    ShortTextNoRun(3, d4[3..]);
    NoRunUnchanged(3, "****", d4[3..]);
  }

  /** A dict argument is redacted per key with that key: `phonenumber` is
      masked outright, `firstname` only by pattern, which leaves a name like
      `Arman` as it is. */
  lemma NamedArgsWithMaskedKey(attrs: map<string, Value>, phone: string, name: string)
    requires "args" !in attrs
    requires phone != [] && name != [] && DigitFree(name)
    ensures FilterRecord(SuiteFilter(3), LogRecord(attrs,
              Named(map["phonenumber" := Str(phone), "firstname" := Str(name)]))).1.args
         == Named(map["phonenumber" := Str("****"), "firstname" := Str(name)])
  {
    FilterTwoNamed(SuiteFilter(3), attrs, "phonenumber", Str(phone), "firstname", Str(name));
    SuiteString(3, name, Some("firstname"));
    Unmatched(3, name);
  }

  lemma ThreeDigitNumeral(i: int)
    requires 100 <= i <= 999
    ensures |Text(Int(i))| == 3 && AllDigits(Text(Int(i)))
  {
    assert NatToString(i) == NatToString(i / 10) + [DigitChar(i % 10)];
    assert NatToString(i / 10) == NatToString(i / 100) + [DigitChar(i / 10 % 10)];
  }

  /** An extra attribute holding a three-digit int such as `123` becomes the
      string `****`: it is turned into text before the pattern runs. */
  lemma IntAttribute(i: int)
    requires 100 <= i <= 999
    ensures FilterRecord(SuiteFilter(3), LogRecord(map["bar" := Int(i)], Positional([]))).1.attrs
         == map["bar" := Str("****")]
  {
    var f := SuiteFilter(3);
    FilterOneAttr(f, "bar", Int(i), Positional([]));
    assert "bar" !in IgnoreKeys;
    var t := Text(Int(i));
    ThreeDigitNumeral(i);
    assert !KeyMasked(f, Some("bar"));
    assert ApplyPatterns(f.patterns, f.mask, t) == DigitRun(3)("****", t);
    ThreeDigitsMasked(t);
  }

  /** Under the suite's filter, a lone truthy scalar attribute whose name is
      neither reserved nor masked is run through `\d{n}` after `str()`. */
  lemma SuiteScalarAttr(n: nat, name: string, v: Value)
    requires name !in IgnoreKeys && name != "phonenumber" && v.IsScalar() && v.Truthy()
    ensures FilterRecord(SuiteFilter(n), LogRecord(map[name := v], Positional([]))).1.attrs
         == map[name := Str(SubDigitRuns(n, "****", Text(v)))]
  {
    var f := SuiteFilter(n);
    FilterOneAttr(f, name, v, Positional([]));
    assert !KeyMasked(f, Some(name));
    assert ApplyPatterns(f.patterns, f.mask, Text(v)) == DigitRun(n)("****", Text(v));
  }

  /** An extra attribute holding some other object is masked through its
      `str()`: a float such as `123.6` becomes `****.6`. */
  lemma FloatAttribute(d: string, b: string)
    requires |d| == 3 && AllDigits(d) && DigitFree(b)
    ensures FilterRecord(SuiteFilter(3), LogRecord(map["bar" := Other(d + b, true)], Positional([]))).1.attrs
         == map["bar" := Str("****" + b)]
  {
    assert "bar" !in IgnoreKeys;
    SuiteScalarAttr(3, "bar", Other(d + b, true));
    OneRun(3, [], d, b);
    assert [] + d + b == d + b;
    assert [] + "****" + b == "****" + b;
  }

  /** `phonenumber` at the top of an attribute masks the whole value, whether
      or not a pattern matches it (`foobar` becomes `****`). */
  lemma MaskedKeyWithoutMatch(s: string)
    requires s != []
    ensures FilterRecord(SuiteFilter(3), LogRecord(map["phonenumber" := Str(s)], Positional([]))).1.attrs
         == map["phonenumber" := Str("****")]
  {
    FilterOneAttr(SuiteFilter(3), "phonenumber", Str(s), Positional([]));
    assert "phonenumber" !in IgnoreKeys;
  }

  /** The same key one level down is not masked: the dict's values are
      redacted with no key, and no pattern matches a text like `foobar`. */
  lemma NestedMaskedKeyIsKept(s: string)
    requires s != [] && DigitFree(s)
    ensures FilterRecord(SuiteFilter(3),
              LogRecord(map["bar" := Map(map["phonenumber" := Str(s)])], Positional([]))).1.attrs
         == map["bar" := Map(map["phonenumber" := Str(s)])]
  {
    var f := SuiteFilter(3);
    FilterOneAttr(f, "bar", Map(map["phonenumber" := Str(s)]), Positional([]));
    assert "bar" !in IgnoreKeys;
    RedactOneEntry(f, "phonenumber", Str(s), Some("bar"));
    SuiteString(3, s, None);
    Unmatched(3, s);
  }

  /** A list nested in a dict attribute, like `{'thing': ['one', '456']}`,
      becomes `{'thing': ['one', '****']}`. */
  lemma NestedListInDict(w: string, d: string)
    requires w != [] && DigitFree(w) && |d| == 3 && AllDigits(d)
    ensures FilterRecord(SuiteFilter(3),
              LogRecord(map["bar" := Map(map["thing" := List([Str(w), Str(d)])])], Positional([]))).1.attrs
         == map["bar" := Map(map["thing" := List([Str(w), Str("****")])])]
  {
    var f := SuiteFilter(3);
    var xs := List([Str(w), Str(d)]);
    FilterOneAttr(f, "bar", Map(map["thing" := xs]), Positional([]));
    assert "bar" !in IgnoreKeys;
    RedactOneEntry(f, "thing", xs, Some("bar"));
    RedactTwoItems(f, Str(w), Str(d), None);
    SuiteString(3, w, None);
    Unmatched(3, w);
    SuiteString(3, d, None);
    ThreeDigitsMasked(d);
  }
}

=== FILE: values.dfy ===
/** The payloads a log record carries: Python's None, bools, ints, strings,
    lists (and tuples) and dicts with string keys, as one recursive type, plus
    any other object (a float, a set, bytes, an instance of some class), which
    the filter never looks inside. */
module Values {

  datatype Option<+T> = None | Some(value: T)

  datatype Value =
    | Null
    | Bool(b: bool)
    | Int(i: int)
    | Str(s: string)
    | List(items: seq<Value>)
    | Map(entries: map<string, Value>)
      /** Any other object, given by what `str()` makes of it and by its truth
          value (from `__bool__` or `__len__`). */
    | Other(text: string, truthy: bool)
  {
    /** Python truthiness: `if content:` */
    predicate Truthy() {
      match this
      case Null => false
      case Bool(b) => b
      case Int(i) => i != 0
      case Str(s) => |s| > 0
      case List(xs) => |xs| > 0
      case Map(m) => |m| > 0
      case Other(_, t) => t
    }

    predicate IsContainer() {
      List? || Map?
    }

    predicate IsScalar() {
      !IsContainer()
    }
  }

  /** One step into a container: a list position or a dict key. */
  datatype Step = Index(i: nat) | Key(k: string)

  /** The value found by following `path` from `v`, if every step exists. */
  function Lookup(v: Value, path: seq<Step>): Option<Value>
    decreases |path|
  {
    if path == [] then Some(v)
    else
      match path[0]
      case Index(i) =>
        if v.List? && i < |v.items| then Lookup(v.items[i], path[1..]) else None
      case Key(k) =>
        if v.Map? && k in v.entries then Lookup(v.entries[k], path[1..]) else None
  }

  /** `a` and `b` have the same nesting: dicts with the same keys, lists of the
      same length, recursively, and a scalar wherever `a` has a scalar. */
  predicate SameShape(a: Value, b: Value)
    decreases a
  {
    match a
    case List(xs) =>
      b.List? && |b.items| == |xs|
      && forall i :: 0 <= i < |xs| ==> SameShape(xs[i], b.items[i])
    case Map(m) =>
      b.Map? && b.entries.Keys == m.Keys
      && forall k :: k in m ==> SameShape(m[k], b.entries[k])
    case _ => b.IsScalar()
  }
}
